=== FILE: README.md ===
# City builder placement and economy, modelled in Dafny

This project models the placement and economy state machine of a grid city
builder. The state has three parts.

- The placement ledger (`PlacementManager`) is a `width × height` grid of cell
  types. Beside it sit two dictionaries keyed by position: committed
  structures and provisional road pieces of an open drag.
- The road drag (`RoadManager`) starts a provisional run on a click. While the
  button is held it rolls the run back and re-lays it along a path. On release
  it commits the run. It also collects the road cells whose tile must be
  recomputed.
- The structure rules (`StructureManager`) accept a house or special building
  only on an in-bounds, free cell next to a road. The integer economy
  (`CityManager`) covers affordability, charges, refunds, income, the
  placement listeners and goal progression.

The whole state is one immutable record, `CityState.City`. Each operation is a
pure function from a state to a state. Its contract says when nothing changes,
what changes otherwise, and which invariant it keeps. `Session` strings the
operations together as a stream of input events, wired the way the game
connects them. It proves that the invariants hold after any admissible
sequence of events.

Modules, in dependency order:

| file | module | models |
|---|---|---|
| grid.dfy | `GridModel` | positions, cell types, the in-bounds neighbour query |
| economy.dfy | `CityEconomy` | `CityManager` |
| placement.dfy | `Placement` | `PlacementManager` |
| state.dfy | `CityState` | the combined state and its invariant |
| roads.dfy | `Roads` | `RoadManager` |
| structures.dfy | `Structures` | `StructureManager` |
| session.dfy | `Session` | the input wiring of `GameManager` and whole sessions |

Several behaviours of the code are modelled as written and shown by lemmas:

- A house is charged twice: once by the placement and once by the listener.
  Only the listener checks affordability a second time, so a house bought
  with exactly its cost stands on the grid but brings no residents
  (`Structures.HouseWithoutResidents`).
- A special building is written as a plain `Structure` cell. Deleting it
  therefore refunds a house (`Structures.DeletedSpecialRefundsHouse`). No
  admissible session ever produces a `SpecialStructure` cell, so the special
  refund is never paid (`Session.SessionsNeverRefundSpecial`).
- Every extend tick of a drag charges a road for each re-laid cell except
  the start cell. That includes pieces already paid for on earlier ticks
  (`Roads.ExtendRechargesWholeRun`). The guard checks only a single road's
  cost, and only when the path is longer than the current run.
- Deleting a provisional road piece while a drag is open clears the cell but
  keeps its provisional record. This breaks the ledger invariant
  (`Placement.DeleteDuringDragBreaksInvariant`). Sessions therefore admit a
  delete only off the open run.
- Deleting a building never removes its entry from the economy's building
  tracker, and never lowers the population. A demolished house or special
  building keeps paying income and keeps counting towards the goals
  (`Placement.DeletedBuildingStillTracked`).
- The recheck list survives `FinishPlacingRoad`. It is cleared only when the
  next drag starts or extends.

## Model

| member | source | states |
|---|---|---|
| GridModel.EmptyGrid | PlacementManager.cs:18-20 | a new grid has a cell for exactly the in-bounds positions, and every cell is Empty |
| GridModel.NeighborsOfType | PlacementManager.cs:159-168 | the neighbours returned are exactly the in-bounds cells at distance 1 of the requested type, each once, at most four |
| Placement.NewLedger | PlacementManager.cs:11-20 | a new ledger is all Empty with no records and satisfies the ledger invariant |
| Placement.CheckIfPositionInBound | PlacementManager.cs:32-39 | true exactly when 0 <= x < width and 0 <= z < height, which is exactly when the grid has that cell |
| Placement.CheckIfPositionIsOfType | PlacementManager.cs:63-66 | true exactly when the cell holds the given type; under the ledger invariant, a cell of an occupied type is recorded in a dictionary and an Empty cell is recorded in neither |
| Placement.CheckIfPositionIsFree | PlacementManager.cs:58-66 | true exactly when the cell is Empty; under the invariant, exactly when the position is in neither dictionary |
| Placement.PlaceObjectOnTheMap | PlacementManager.cs:41-47 | only that cell changes, to the given type; the position joins the committed keys, which it must not already be in; provisional keys are unchanged; placing on a free cell keeps the invariant |
| Placement.PlaceTemporaryStructure | PlacementManager.cs:68-73 | only that cell changes; the position joins the provisional keys, which it must not already be in; committed keys are unchanged |
| Placement.RemoveAllTemporaryStructures | PlacementManager.cs:170-179 | provisional cells become Empty and the provisional map empties; committed keys and all other cells are untouched; the invariant is kept |
| Placement.RollbackIdempotent | PlacementManager.cs:170-179 | a second rollback changes nothing |
| Placement.AddTemporaryStructuresToStructureDictionary | PlacementManager.cs:181-188 | committed keys become old committed keys plus provisional keys; provisional keys empty; the grid is unchanged; the two key sets must be disjoint |
| Placement.DeleteRefund | PlacementManager.cs:128-152 | a committed Structure refunds a house, a committed SpecialStructure a special building, any Road a road, and nothing else refunds |
| Placement.DeleteStructureAt | PlacementManager.cs:124-156 | out of bounds nothing changes; otherwise the cell becomes Empty, the position stops being committed, exactly the selected refund is paid, and the invariant is kept off the provisional run |
| Placement.DeleteUndoesPlace | PlacementManager.cs:124-156 | deleting a structure just placed on a free cell restores the ledger |
| Placement.DeletedBuildingStillTracked | PlacementManager.cs:124-156 | deleting a tracked building clears its cell but keeps its tracker entry, so income, population and the special count the goals use are unchanged |
| Placement.DeleteDuringDragBreaksInvariant | PlacementManager.cs:144-155 | deleting a provisional road piece leaves a provisional key on an Empty cell |
| CityEconomy.Start | CityManager.cs:57-90 | the configured goals, or, when none are set, exactly the three default goals (20/1/500, 50/2/1000, 100/4/2000), none completed; starting money, no population, no tracked building, goal index 0 |
| CityEconomy.CanAfford | CityManager.cs:193-195 | each item is affordable exactly when the money is at least that item's configured cost |
| CityEconomy.Income | CityManager.cs:212-219 | the income is never negative under non-negative rates and population, and is the residents' share alone when nothing is tracked |
| CityEconomy.Charge | CityManager.cs:193-199 | money drops by exactly the cost with no lower bound, so it stays non-negative exactly when the item was affordable |
| CityEconomy.Refund | CityManager.cs:201-203 | money rises by exactly the refund of that item and nothing else changes |
| CityEconomy.ChargeThenRefund | CityManager.cs:197-203 | buying then refunding an item loses exactly its cost minus its refund and changes nothing else; with the default settings the loss is 30% of the cost |
| CityEconomy.GenerateIncome | CityManager.cs:205-219 | money grows by population times rate plus houses and specials times their rates, never negative under non-negative rates and a non-negative population |
| CityEconomy.CountAfterAdd | CityManager.cs:216-217 | tracking a new building raises its type's count by one and leaves the other count alone |
| CityEconomy.CompleteCurrentGoal | CityManager.cs:131-155 | pays the current goal's reward, marks only that goal completed and advances the index by one; past the last goal it does nothing |
| CityEconomy.CheckGoalProgress | CityManager.cs:115-129 | completes the current goal, as `CompleteCurrentGoal` does (reward, marking, index, all other goals kept), exactly when it is open and both targets are met, so at most one goal per call; otherwise nothing changes; the completed prefix stays completed |
| CityEconomy.HandleHousePlacement | CityManager.cs:221-235 | when a house is affordable, charges it, tracks a house at the position, adds its residents, then runs the goal check on that updated economy; otherwise nothing changes |
| CityEconomy.HandleSpecialPlacement | CityManager.cs:237-254 | the same for a special building, with the goal check run on the updated economy; the nearby-house count has no effect |
| CityEconomy.IncomeAfterNewHouse | CityManager.cs:212-227 | a new house raises the income by its residents' share plus one house's income |
| CityEconomy.IncomeAfterNewSpecial | CityManager.cs:212-247 | a new special building raises the income by its residents' share plus one special building's income |
| CityEconomy.SpecialCountsTowardsGoals | CityManager.cs:122 | a new special building raises the special count the goals compare against by one |
| CityEconomy.ColumnCountIsSize | CityManager.cs:261-268 | the per-column count equals the number of tracked houses in that column of the window |
| CityEconomy.WindowCountIsSize | CityManager.cs:259-269 | the column-by-column sum equals the number of tracked houses in those columns of the window |
| CityEconomy.CountColumn | CityManager.cs:261-268 | the inner loop's count is the number of tracked houses in that column of the window |
| CityEconomy.GetNearbyHouses | CityManager.cs:256-271 | the result is the number of tracked houses within 2 cells on both axes, between 0 and 25 |
| CityState.Init | CityManager.cs:87-90 | the starting city has no drag, starting money, no population, a grid of the given size with no special cell, and satisfies every invariant |
| Roads.AddAbsent | RoadManager.cs:119-125 | the recheck list keeps its prefix, gains exactly the missing items, and no appended item repeats |
| Roads.FixRoadPrefabs | RoadManager.cs:112-132 | every Road neighbour of every run position ends up in the recheck list once; new entries are only such neighbours |
| Roads.UpdateRoadAtPosition | RoadManager.cs:134-141 | the cells re-tiled after a delete are exactly the in-bounds Road neighbours, each once |
| Roads.LayRun | RoadManager.cs:82-94 | exactly the free path cells become provisional roads, one road is charged per distinct free cell other than the start, and occupied cells are listed for re-tiling |
| Roads.RelaidAfterRollback | RoadManager.cs:71-89 | after rollback, the free path cells are those that were free or provisional before it |
| Roads.StartRoad | RoadManager.cs:37-55 | without money for a road nothing changes; otherwise the drag opens at the cell with run [cell], the cell becomes a provisional road, one road is charged and its road neighbours are listed |
| Roads.ExtendRoad | RoadManager.cs:56-96 | unaffordable with new pieces changes nothing; otherwise the run is rolled back and re-laid along the path with the grid, keys, charge and recheck list stated cell by cell |
| Roads.PlaceRoad | RoadManager.cs:26-97 | an out-of-bounds or occupied cell changes nothing; otherwise it starts a drag when none is open and extends the open one |
| Roads.FinishPlacingRoad | RoadManager.cs:99-110 | closes the drag, commits every provisional record, empties the run and resets the start; grid, money and recheck list are unchanged |
| Roads.ExtendThenRollback | RoadManager.cs:71-94 | rolling back after an extension gives what rolling back before it gave |
| Roads.StartThenRollback | RoadManager.cs:46-54 | rolling back right after a start restores the ledger |
| Roads.ExtendRechargesWholeRun | RoadManager.cs:82-94 | an extension over an unrepeated path through free or provisional cells costs one road per cell but the start |
| Roads.ClickAndRelease | RoadManager.cs:26-110 | click then release on a free cell leaves a committed road there, one road paid, and no drag |
| Structures.CheckPositionBeforePlacement | StructureManager.cs:61-79 | true exactly when the cell is in bounds, Empty and has a Road 4-neighbour |
| Structures.PlaceHouse | StructureManager.cs:25-41 | unaffordable or rejected changes nothing; otherwise a committed Structure is written, the house is charged, and the house listener runs on the charged economy, charging again and adding residents only when the money still covers it; population never falls under non-negative rates and the goal index never moves back |
| Structures.PlaceSpecial | StructureManager.cs:43-59 | the same for a special building, with the special listener run on the charged economy, and the cell written is Structure |
| Structures.HouseWithoutResidents | StructureManager.cs:27-38 | a house bought with exactly its cost is on the grid and paid once but adds no residents and no tracked house |
| Structures.DeletedSpecialRefundsHouse | StructureManager.cs:54 | deleting a just-placed special building refunds a house |
| Session.StartKeepsSession | RoadManager.cs:46-54 | starting a drag keeps the session invariant and adds no special cell |
| Session.ExtendKeepsSession | RoadManager.cs:71-94 | extending a drag keeps the session invariant and adds no special cell |
| Session.RoadPressKeepsSession | RoadManager.cs:26-97 | any road press keeps the session invariant |
| Session.HouseKeepsSession | StructureManager.cs:25-59 | house and special placement keep the session invariant and add no special cell |
| Session.DeleteKeepsSession | GameManager.cs:35-39 | a delete off the open run keeps the session invariant, adds no special cell and changes only the money of the economy |
| Session.Step | GameManager.cs:30-58 | every input event keeps the session invariant and goal consistency, never adds a special cell, never lowers the population under non-negative rates, never moves the goal index back |
| Session.Run | GameManager.cs:30-58 | a whole admissible event stream keeps those same invariants |
| Session.RefundByCellType | PlacementManager.cs:128-152 | under the session invariant the refund depends on the cell type alone |
| Session.SessionsNeverRefundSpecial | PlacementManager.cs:138-141 | from the starting city, no admissible event stream ever leads to a special-building refund |

## Left out

- Unity plumbing: component lookup, game-object creation, layers, model swapping, destroying nature by a physics cast, audio, logging and UI text. None of it affects the modelled state.
- Placement.RemoveAllTemporaryStructures: the rollback clears the cell at the rounded world position of each provisional model object, which is placed at its key relative to the placement manager's transform. The model clears exactly the key cells, so it assumes that transform is the identity (no offset, rotation or scale).
- `RoadFixer.FixRoadAtPosition` is not part of this model. The model takes it to change no grid cell and no dictionary key; only which cells get re-tiled is modelled.
- `GridSearch.AStarSearch` is not part of this model. `Roads.PlaceRoad` takes the path as a parameter and assumes only that it stays on the grid.
- `Grid` is not part of this model. It is modelled as a map defined on exactly the in-bounds cells. The order of its neighbour enumeration (left, right, down, up) is an assumption and only affects the order of the recheck list.
- `GetRandomWeightedIndex` chooses a prefab with floating-point weights. The prefab has no effect on the modelled state, so the choice is left out.
- The income timer runs on frame time in floating point. It becomes an explicit `IncomeTick` event.
- Refund amounts come from `RoundToInt(cost * refundRate)`, computed in floating point. They are configuration integers here, 70/14/210 for the default costs.
- Goal descriptions and the `CityGoalsData` asset are left out; no modelled code reads them.
- Integers are unbounded. The 32-bit `int` of money, population and income could wrap; the model does not wrap.
- A `Dictionary.Add` on a present key throws, and so does a grid index out of range. Each becomes a precondition rather than a modelled exception.
- Session.Step, Session.Run, Session.SessionsNeverRefundSpecial: `Step` requires, and `Run` returns `None` on, a delete aimed at a provisional road piece of an open drag. Such a delete breaks the ledger invariant (shown by `Placement.DeleteDuringDragBreaksInvariant`), so sessions are proved only over inputs that avoid it.

=== FILE: economy.dfy ===
/**
 * The integer economy of the city: money, population, the tracker of
 * buildings that paid their way in, the income formula and the list of
 * population goals. The income timer is replaced by an explicit tick.
 */
module CityEconomy {
  import opened GridModel

  datatype BuildingType = House | Special

  /** What can be bought and refunded. */
  datatype Item = HouseItem | RoadItem | SpecialItem

  /**
   * The serialized settings of the city. The refunds stand for
   * `RoundToInt(cost * refundRate)`, which is computed in floating point.
   */
  datatype Config = Config(
    startingMoney: int,
    populationPerHouse: int,
    populationPerSpecialBuilding: int,
    houseCost: int,
    roadCost: int,
    specialBuildingCost: int,
    incomePerResident: int,
    incomePerHouse: int,
    incomePerSpecial: int,
    houseRefund: int,
    roadRefund: int,
    specialRefund: int)

  /** The defaults of the serialized fields; refunds are 70% of each cost, rounded. */
  const DefaultConfig := Config(1000, 4, 2, 100, 20, 300, 2, 10, 50, 70, 14, 210)

  datatype Goal = Goal(requiredPopulation: int, requiredSpecialBuildings: int, moneyReward: int, isCompleted: bool)

  /** The goals installed when none are configured. */
  const DefaultGoals := [Goal(20, 1, 500, false), Goal(50, 2, 1000, false), Goal(100, 4, 2000, false)]

  datatype Economy = Economy(
    money: int,
    population: int,
    tracker: map<Pos, BuildingType>,
    goals: seq<Goal>,
    goalIndex: nat)

  /** Rate settings under which nothing the city does shrinks its population or income. */
  predicate NonNegativeRates(cfg: Config) {
    && cfg.populationPerHouse >= 0
    && cfg.populationPerSpecialBuilding >= 0
    && cfg.incomePerResident >= 0
    && cfg.incomePerHouse >= 0
    && cfg.incomePerSpecial >= 0
  }

  /** Every goal before the current index has been completed, and the index never runs past the list. */
  ghost predicate GoalsConsistent(e: Economy) {
    && e.goalIndex <= |e.goals|
    && forall i :: 0 <= i < e.goalIndex ==> e.goals[i].isCompleted
  }

  /** The state after `Start`: configured goals (or the defaults), starting money, nobody yet. */
  function Start(cfg: Config, goals: seq<Goal>): (e: Economy)
    ensures e.money == cfg.startingMoney && e.population == 0 && e.goalIndex == 0
    ensures e.tracker == map[]
    ensures |e.goals| > 0
    ensures goals != [] ==> e.goals == goals
    ensures goals == [] ==> e.goals == DefaultGoals && forall i :: 0 <= i < |e.goals| ==> !e.goals[i].isCompleted
    ensures GoalsConsistent(e)
  {
    Economy(cfg.startingMoney, 0, map[], if goals == [] then DefaultGoals else goals, 0)
  }

  function Cost(cfg: Config, item: Item): int {
    match item
    case HouseItem => cfg.houseCost
    case RoadItem => cfg.roadCost
    case SpecialItem => cfg.specialBuildingCost
  }

  function RefundAmount(cfg: Config, item: Item): int {
    match item
    case HouseItem => cfg.houseRefund
    case RoadItem => cfg.roadRefund
    case SpecialItem => cfg.specialRefund
  }

  /** `CanAffordHouse`, `CanAffordRoad`, `CanAffordSpecial`: the money covers that item's cost. */
  function CanAfford(e: Economy, cfg: Config, item: Item): (r: bool)
    ensures item == HouseItem ==> (r <==> e.money >= cfg.houseCost)
    ensures item == RoadItem ==> (r <==> e.money >= cfg.roadCost)
    ensures item == SpecialItem ==> (r <==> e.money >= cfg.specialBuildingCost)
  {
    e.money >= Cost(cfg, item)
  }

  /**
   * `ChargeForHouse`, `ChargeForRoad`, `ChargeForSpecial`: money drops by
   * exactly the cost with no lower bound, so the balance stays non-negative
   * exactly when the item was affordable; nothing else changes.
   */
  function Charge(e: Economy, cfg: Config, item: Item): (r: Economy)
    ensures r.money == e.money - Cost(cfg, item)
    ensures r.money >= 0 <==> CanAfford(e, cfg, item)
    ensures r.(money := e.money) == e
  {
    e.(money := e.money - Cost(cfg, item))
  }

  /** `RefundHouse`, `RefundRoad`, `RefundSpecial`. */
  function Refund(e: Economy, cfg: Config, item: Item): (r: Economy)
    ensures r.money == e.money + RefundAmount(cfg, item)
    ensures r.(money := e.money) == e
  {
    e.(money := e.money + RefundAmount(cfg, item))
  }

  /**
   * Buying an item and getting it refunded loses the difference between its
   * cost and its refund; with the default settings that is 30% of the cost
   * for every item.
   */
  lemma ChargeThenRefund(e: Economy, cfg: Config, item: Item)
    ensures Refund(Charge(e, cfg, item), cfg, item)
         == e.(money := e.money - Cost(cfg, item) + RefundAmount(cfg, item))
    ensures cfg == DefaultConfig ==>
      10 * (e.money - Refund(Charge(e, cfg, item), cfg, item).money) == 3 * Cost(cfg, item)
  {
  }

  /** The number of tracked buildings of type `b`. */
  function CountOf(tracker: map<Pos, BuildingType>, b: BuildingType): nat {
    |set p | p in tracker && tracker[p] == b|
  }

  /**
   * `CalculateCurrentIncome`: never negative when neither the rates nor the
   * population are; with nothing tracked only the residents pay.
   */
  function Income(e: Economy, cfg: Config): (r: int)
    ensures NonNegativeRates(cfg) && e.population >= 0 ==> r >= 0
    ensures e.tracker == map[] ==> r == e.population * cfg.incomePerResident
  {
    assert e.tracker == map[] ==> CountOf(e.tracker, House) == 0 && CountOf(e.tracker, Special) == 0;
    e.population * cfg.incomePerResident
      + CountOf(e.tracker, House) * cfg.incomePerHouse
      + CountOf(e.tracker, Special) * cfg.incomePerSpecial
  }

  /**
   * One income tick (`GenerateIncome`): money grows by exactly the current
   * income, which is never negative when the rates are not and the population
   * is not; nothing else changes.
   */
  function GenerateIncome(e: Economy, cfg: Config): (r: Economy)
    ensures r.money - e.money == Income(e, cfg)
    ensures NonNegativeRates(cfg) && e.population >= 0 ==> r.money >= e.money
    ensures r.(money := e.money) == e
  {
    e.(money := e.money + Income(e, cfg))
  }

  /** Adding a building at a position not yet tracked raises its type's count by one and leaves the other count alone. */
  lemma CountAfterAdd(tracker: map<Pos, BuildingType>, pos: Pos, b: BuildingType)
    requires pos !in tracker
    ensures CountOf(tracker[pos := b], b) == CountOf(tracker, b) + 1
    ensures forall o :: o != b ==> CountOf(tracker[pos := b], o) == CountOf(tracker, o)
  {
    var t := tracker[pos := b];
    assert (set p | p in t && t[p] == b) == (set p | p in tracker && tracker[p] == b) + {pos};
    forall o | o != b
      ensures CountOf(t, o) == CountOf(tracker, o)
    {
      assert (set p | p in t && t[p] == o) == (set p | p in tracker && tracker[p] == o);
    }
  }

  /** Reward paid when the goal index moved on between two states. */
  function RewardPaid(before: Economy, after: Economy): int {
    if after.goalIndex > before.goalIndex && before.goalIndex < |before.goals|
    then before.goals[before.goalIndex].moneyReward
    else 0
  }

  /**
   * `CompleteCurrentGoal`: with a current goal, pays its reward, marks it
   * completed and moves to the next one; past the last goal it does nothing.
   * Population and the tracker never change.
   */
  function CompleteCurrentGoal(e: Economy): (r: Economy)
    ensures e.goalIndex >= |e.goals| ==> r == e
    ensures e.goalIndex < |e.goals| ==>
      && r.money == e.money + e.goals[e.goalIndex].moneyReward
      && r.goalIndex == e.goalIndex + 1
      && |r.goals| == |e.goals|
      && r.goals[e.goalIndex].isCompleted
      && (forall i :: 0 <= i < |e.goals| && i != e.goalIndex ==> r.goals[i] == e.goals[i])
      && r.goals[e.goalIndex].(isCompleted := false) == e.goals[e.goalIndex].(isCompleted := false)
    ensures r.population == e.population && r.tracker == e.tracker
    ensures GoalsConsistent(e) ==> GoalsConsistent(r)
  {
    if e.goalIndex >= |e.goals| then e
    else
      var i := e.goalIndex;
      e.(money := e.money + e.goals[i].moneyReward,
         goals := e.goals[i := e.goals[i].(isCompleted := true)],
         goalIndex := i + 1)
  }

  /** The current goal is open and its population and special-building targets are met. */
  predicate GoalReached(e: Economy) {
    && e.goalIndex < |e.goals|
    && !e.goals[e.goalIndex].isCompleted
    && e.population >= e.goals[e.goalIndex].requiredPopulation
    && CountOf(e.tracker, Special) >= e.goals[e.goalIndex].requiredSpecialBuildings
  }

  /**
   * `CheckGoalProgress`: completes the current goal exactly when it is
   * reached, so at most one goal completes per call; otherwise (including
   * past the last goal, or on a goal already flagged completed) nothing changes.
   */
  function CheckGoalProgress(e: Economy): (r: Economy)
    ensures GoalReached(e) ==> r == CompleteCurrentGoal(e)
    ensures GoalReached(e) ==> r.goalIndex == e.goalIndex + 1 && r.money == e.money + e.goals[e.goalIndex].moneyReward
    ensures !GoalReached(e) ==> r == e
    ensures r.goalIndex <= e.goalIndex + 1
    ensures r.money == e.money + RewardPaid(e, r)
    ensures r.population == e.population && r.tracker == e.tracker
    ensures GoalsConsistent(e) ==> GoalsConsistent(r)
  {
    if e.goalIndex >= |e.goals| then e
    else if e.goals[e.goalIndex].isCompleted then e
    else if e.population >= e.goals[e.goalIndex].requiredPopulation
         && CountOf(e.tracker, Special) >= e.goals[e.goalIndex].requiredSpecialBuildings
    then CompleteCurrentGoal(e)
    else e
  }

  /**
   * `HandleHousePlacement` (the listener of a house placement): when the
   * house is affordable it charges the house cost a second time, tracks the
   * position as a House, adds the house's residents and checks the current
   * goal; otherwise nothing changes.
   */
  function HandleHousePlacement(e: Economy, cfg: Config, pos: Pos): (r: Economy)
    ensures !CanAfford(e, cfg, HouseItem) ==> r == e
    ensures CanAfford(e, cfg, HouseItem) ==>
      && r.money == e.money - cfg.houseCost + RewardPaid(e, r)
      && r.tracker == e.tracker[pos := House]
      && r.population == e.population + cfg.populationPerHouse
      && e.goalIndex <= r.goalIndex <= e.goalIndex + 1
    ensures CanAfford(e, cfg, HouseItem) ==>
      r == CheckGoalProgress(e.(money := e.money - cfg.houseCost,
                                tracker := e.tracker[pos := House],
                                population := e.population + cfg.populationPerHouse))
    ensures GoalsConsistent(e) ==> GoalsConsistent(r)
  {
    if CanAfford(e, cfg, HouseItem) then
      var charged := Charge(e, cfg, HouseItem);
      CheckGoalProgress(charged.(tracker := charged.tracker[pos := House],
                                 population := charged.population + cfg.populationPerHouse))
    else e
  }

  /**
   * `HandleSpecialPlacement`: like the house listener with the special
   * building's cost and residents; the count of nearby houses it computes is
   * never used and so has no effect here.
   */
  function HandleSpecialPlacement(e: Economy, cfg: Config, pos: Pos): (r: Economy)
    ensures !CanAfford(e, cfg, SpecialItem) ==> r == e
    ensures CanAfford(e, cfg, SpecialItem) ==>
      && r.money == e.money - cfg.specialBuildingCost + RewardPaid(e, r)
      && r.tracker == e.tracker[pos := Special]
      && r.population == e.population + cfg.populationPerSpecialBuilding
      && e.goalIndex <= r.goalIndex <= e.goalIndex + 1
    ensures CanAfford(e, cfg, SpecialItem) ==>
      r == CheckGoalProgress(e.(money := e.money - cfg.specialBuildingCost,
                                tracker := e.tracker[pos := Special],
                                population := e.population + cfg.populationPerSpecialBuilding))
    ensures GoalsConsistent(e) ==> GoalsConsistent(r)
  {
    if CanAfford(e, cfg, SpecialItem) then
      var charged := Charge(e, cfg, SpecialItem);
      CheckGoalProgress(charged.(tracker := charged.tracker[pos := Special],
                                 population := charged.population + cfg.populationPerSpecialBuilding))
    else e
  }

  /**
   * A house placed at an untracked position raises the income by the new
   * residents' share plus one house's income, whether or not a goal completes.
   */
  lemma IncomeAfterNewHouse(e: Economy, cfg: Config, pos: Pos)
    requires CanAfford(e, cfg, HouseItem) && pos !in e.tracker
    ensures Income(HandleHousePlacement(e, cfg, pos), cfg)
         == Income(e, cfg) + cfg.populationPerHouse * cfg.incomePerResident + cfg.incomePerHouse
  {
    var r := HandleHousePlacement(e, cfg, pos);
    CountAfterAdd(e.tracker, pos, House);
    assert CountOf(r.tracker, Special) == CountOf(e.tracker, Special);
    assert (e.population + cfg.populationPerHouse) * cfg.incomePerResident
        == e.population * cfg.incomePerResident + cfg.populationPerHouse * cfg.incomePerResident;
  }

  /**
   * A special building placed at an untracked position raises the income by
   * its residents' share plus one special building's income, whether or not
   * a goal completes.
   */
  lemma IncomeAfterNewSpecial(e: Economy, cfg: Config, pos: Pos)
    requires CanAfford(e, cfg, SpecialItem) && pos !in e.tracker
    ensures Income(HandleSpecialPlacement(e, cfg, pos), cfg)
         == Income(e, cfg) + cfg.populationPerSpecialBuilding * cfg.incomePerResident + cfg.incomePerSpecial
  {
    var r := HandleSpecialPlacement(e, cfg, pos);
    CountAfterAdd(e.tracker, pos, Special);
    assert CountOf(r.tracker, House) == CountOf(e.tracker, House);
    assert (e.population + cfg.populationPerSpecialBuilding) * cfg.incomePerResident
        == e.population * cfg.incomePerResident + cfg.populationPerSpecialBuilding * cfg.incomePerResident;
    assert (CountOf(e.tracker, Special) + 1) * cfg.incomePerSpecial
        == CountOf(e.tracker, Special) * cfg.incomePerSpecial + cfg.incomePerSpecial;
  }

  /** A special building placed at an untracked position counts once more towards the goals' special target. */
  lemma SpecialCountsTowardsGoals(e: Economy, cfg: Config, pos: Pos)
    requires CanAfford(e, cfg, SpecialItem) && pos !in e.tracker
    ensures CountOf(HandleSpecialPlacement(e, cfg, pos).tracker, Special) == CountOf(e.tracker, Special) + 1
    ensures CountOf(HandleSpecialPlacement(e, cfg, pos).tracker, House) == CountOf(e.tracker, House)
  {
    CountAfterAdd(e.tracker, pos, Special);
  }

  /** Is a house tracked at `p`, as 0 or 1. */
  function HouseAt(tracker: map<Pos, BuildingType>, p: Pos): nat {
    if p in tracker && tracker[p] == House then 1 else 0
  }

  /** The window reaches this far from its centre on each axis. */
  const Reach: int := 2

  /** Houses at offsets (dx, dz) for -Reach <= dz < zEnd in column dx around `pos`. */
  function ColumnCount(tracker: map<Pos, BuildingType>, pos: Pos, dx: int, zEnd: int): (r: nat)
    requires -Reach <= zEnd
    ensures r <= zEnd + Reach
    decreases zEnd + Reach
  {
    if zEnd == -Reach then 0
    else ColumnCount(tracker, pos, dx, zEnd - 1) + HouseAt(tracker, Pos(pos.x + dx, pos.z + zEnd - 1))
  }

  /** Houses in the columns -Reach <= dx < xEnd of the 5 by 5 window around `pos`. */
  function WindowCount(tracker: map<Pos, BuildingType>, pos: Pos, xEnd: int): (r: nat)
    requires -Reach <= xEnd
    ensures r <= (2 * Reach + 1) * (xEnd + Reach)
    decreases xEnd + Reach
  {
    if xEnd == -Reach then 0
    else WindowCount(tracker, pos, xEnd - 1) + ColumnCount(tracker, pos, xEnd - 1, Reach + 1)
  }

  /**
   * The tracked houses whose column offset from `pos` lies in [xLo, xEnd)
   * and whose row offset lies in [-Reach, zEnd).
   */
  function HousesIn(tracker: map<Pos, BuildingType>, pos: Pos, xLo: int, xEnd: int, zEnd: int): set<Pos> {
    set p | p in tracker && tracker[p] == House && xLo <= p.x - pos.x < xEnd && -Reach <= p.z - pos.z < zEnd
  }

  /** A column count is the number of tracked houses in that part of the column. */
  lemma {:induction false} ColumnCountIsSize(tracker: map<Pos, BuildingType>, pos: Pos, dx: int, zEnd: int)
    requires -Reach <= zEnd
    ensures ColumnCount(tracker, pos, dx, zEnd) == |HousesIn(tracker, pos, dx, dx + 1, zEnd)|
    decreases zEnd + Reach
  {
    if zEnd == -Reach {
      assert HousesIn(tracker, pos, dx, dx + 1, zEnd) == {};
    } else {
      ColumnCountIsSize(tracker, pos, dx, zEnd - 1);
      var q := Pos(pos.x + dx, pos.z + zEnd - 1);
      var below := HousesIn(tracker, pos, dx, dx + 1, zEnd - 1);
      if HouseAt(tracker, q) == 1 {
        assert HousesIn(tracker, pos, dx, dx + 1, zEnd) == below + {q};
      } else {
        assert HousesIn(tracker, pos, dx, dx + 1, zEnd) == below;
      }
    }
  }

  /** A window count is the number of tracked houses in those columns of the window. */
  lemma {:induction false} WindowCountIsSize(tracker: map<Pos, BuildingType>, pos: Pos, xEnd: int)
    requires -Reach <= xEnd
    ensures WindowCount(tracker, pos, xEnd) == |HousesIn(tracker, pos, -Reach, xEnd, Reach + 1)|
    decreases xEnd + Reach
  {
    if xEnd == -Reach {
      assert HousesIn(tracker, pos, -Reach, xEnd, Reach + 1) == {};
    } else {
      WindowCountIsSize(tracker, pos, xEnd - 1);
      ColumnCountIsSize(tracker, pos, xEnd - 1, Reach + 1);
      var left := HousesIn(tracker, pos, -Reach, xEnd - 1, Reach + 1);
      var column := HousesIn(tracker, pos, xEnd - 1, xEnd, Reach + 1);
      assert HousesIn(tracker, pos, -Reach, xEnd, Reach + 1) == left + column;
      assert left * column == {};
    }
  }

  /** The houses in column `x` of the window around `pos`, counted cell by cell. */
  method CountColumn(tracker: map<Pos, BuildingType>, pos: Pos, x: int) returns (count: nat)
    ensures count == ColumnCount(tracker, pos, x, Reach + 1)
    ensures count == |HousesIn(tracker, pos, x, x + 1, Reach + 1)|
  {
    count := 0;
    var z := -Reach;
    while z <= Reach
      invariant -Reach <= z <= Reach + 1
      invariant count == ColumnCount(tracker, pos, x, z)
    {
      var checkPos := Pos(pos.x + x, pos.z + z);
      if checkPos in tracker && tracker[checkPos] == House {
        count := count + 1;
      }
      z := z + 1;
    }
    ColumnCountIsSize(tracker, pos, x, Reach + 1);
  }

  /**
   * `GetNearbyHouses`: the number of tracked houses in the 5 by 5 window
   * centred on `pos`, so between 0 and 25. Its caller discards the result.
   */
  method GetNearbyHouses(tracker: map<Pos, BuildingType>, pos: Pos) returns (count: int)
    ensures count == |HousesIn(tracker, pos, -Reach, Reach + 1, Reach + 1)|
    ensures 0 <= count <= 25
  {
    count := 0;
    var x := -Reach;
    while x <= Reach
      invariant -Reach <= x <= Reach + 1
      invariant count == WindowCount(tracker, pos, x)
    {
      var column := CountColumn(tracker, pos, x);
      count := count + column;
      x := x + 1;
    }
    WindowCountIsSize(tracker, pos, Reach + 1);
  }
}

=== FILE: grid.dfy ===
/**
 * Positions, cell types and the 4-connected neighbour query of the bounded
 * placement grid. The grid itself is a map that holds exactly the in-bounds
 * cells; reading a cell outside it is what the source's grid indexer rejects.
 */
module GridModel {

  /** A grid coordinate (the source's `Vector3Int` with `y` always 0). */
  datatype Pos = Pos(x: int, z: int)

  datatype CellType = Empty | Road | Structure | SpecialStructure

  type Grid = map<Pos, CellType>

  predicate InBounds(width: int, height: int, p: Pos) {
    0 <= p.x < width && 0 <= p.z < height
  }

  /** The grid holds a cell for every in-bounds position and for no other. */
  ghost predicate Shaped(g: Grid, width: int, height: int) {
    forall p :: p in g <==> InBounds(width, height, p)
  }

  /** The in-bounds positions of a `width` by `height` grid. */
  function Cells(width: int, height: int): set<Pos> {
    set x, z | 0 <= x < width && 0 <= z < height :: Pos(x, z)
  }

  /** A freshly constructed grid: every cell is `Empty`. */
  function EmptyGrid(width: int, height: int): (g: Grid)
    ensures Shaped(g, width, height)
    ensures forall p :: p in g ==> g[p] == Empty
  {
    var g := map p | p in Cells(width, height) :: Empty;
    assert Shaped(g, width, height) by {
      forall p | InBounds(width, height, p)
        ensures p in Cells(width, height)
      {
        var x, z := p.x, p.z;
        assert Pos(x, z) == p;
      }
    }
    g
  }

  function Abs(n: int): nat {
    if n < 0 then -n else n
  }

  /** Grid distance; two cells are 4-adjacent exactly when it is 1. */
  function Manhattan(p: Pos, q: Pos): nat {
    Abs(p.x - q.x) + Abs(p.z - q.z)
  }

  ghost predicate NoDup<T>(s: seq<T>) {
    forall i, j :: 0 <= i < j < |s| ==> s[i] != s[j]
  }

  /**
   * The four orthogonal offsets of `p`, in the order left, right, down, up.
   * The grid class that enumerates them is not part of this model; this
   * order is an assumption and only fixes the order of re-tiling.
   */
  function Offsets(p: Pos): (r: seq<Pos>)
    ensures NoDup(r)
  {
    [Pos(p.x - 1, p.z), Pos(p.x + 1, p.z), Pos(p.x, p.z - 1), Pos(p.x, p.z + 1)]
  }

  lemma OffsetsAreAdjacent(p: Pos, q: Pos)
    ensures q in Offsets(p) <==> Manhattan(p, q) == 1
  {
    if Manhattan(p, q) == 1 {
      if p.x == q.x {
        assert q == Pos(p.x, p.z - 1) || q == Pos(p.x, p.z + 1);
      } else {
        assert q == Pos(p.x - 1, p.z) || q == Pos(p.x + 1, p.z);
      }
    }
  }

  /** Keeps the candidates that are in bounds and hold a cell of type `t`. */
  function KeepOfType(g: Grid, width: int, height: int, cands: seq<Pos>, t: CellType): (r: seq<Pos>)
    requires Shaped(g, width, height)
    ensures forall q :: q in r <==> q in cands && InBounds(width, height, q) && g[q] == t
    ensures |r| <= |cands|
    ensures NoDup(cands) ==> NoDup(r)
  {
    if cands == [] then []
    else
      var rest := KeepOfType(g, width, height, cands[1..], t);
      assert forall q :: q in cands <==> q == cands[0] || q in cands[1..];
      if InBounds(width, height, cands[0]) && g[cands[0]] == t then [cands[0]] + rest else rest
  }

  /**
   * The in-bounds 4-neighbours of `p` whose cell has type `t`: never an
   * out-of-bounds position, no wrap-around, each neighbour once.
   */
  function NeighborsOfType(g: Grid, width: int, height: int, p: Pos, t: CellType): (r: seq<Pos>)
    requires Shaped(g, width, height)
    ensures forall q :: q in r <==> InBounds(width, height, q) && Manhattan(p, q) == 1 && g[q] == t
    ensures NoDup(r)
    ensures |r| <= 4
  {
    var r := KeepOfType(g, width, height, Offsets(p), t);
    forall q ensures q in Offsets(p) <==> Manhattan(p, q) == 1 {
      OffsetsAreAdjacent(p, q);
    }
    r
  }
}

=== FILE: placement.dfy ===
/**
 * The placement ledger: the grid of cell types plus the two dictionaries of
 * committed structures and provisional (drag-in-progress) road pieces, keyed
 * by position. The dictionaries' values are visual model handles, so only
 * their key sets are kept.
 */
module Placement {
  import opened GridModel
  import opened CityEconomy

  datatype Option<T> = None | Some(value: T)

  datatype Ledger = Ledger(
    width: int,
    height: int,
    grid: Grid,
    committed: set<Pos>,
    provisional: set<Pos>)

  /** The grid holds exactly the in-bounds cells, so every in-bounds read succeeds. */
  ghost predicate WellShaped(l: Ledger) {
    Shaped(l.grid, l.width, l.height)
  }

  /**
   * The ledger invariant: the two key sets are disjoint, and a cell is
   * occupied exactly when its position is a key of one of them.
   */
  ghost predicate Valid(l: Ledger) {
    && WellShaped(l)
    && l.committed !! l.provisional
    && (forall p :: p in l.committed ==> p in l.grid && l.grid[p] != Empty)
    && (forall p :: p in l.provisional ==> p in l.grid && l.grid[p] != Empty)
    && (forall p :: p in l.grid && l.grid[p] != Empty ==> p in l.committed || p in l.provisional)
  }

  /** A new ledger: an all-Empty grid and no records. */
  function NewLedger(width: int, height: int): (l: Ledger)
    ensures Valid(l)
    ensures l.committed == {} && l.provisional == {}
    ensures l.width == width && l.height == height
    ensures forall p :: p in l.grid ==> l.grid[p] == Empty
  {
    Ledger(width, height, EmptyGrid(width, height), {}, {})
  }

  /**
   * `CheckIfPositionInBound`: the coordinate test agrees with the grid's own
   * extent, so a position passes exactly when the grid has a cell for it.
   */
  function CheckIfPositionInBound(l: Ledger, p: Pos): (r: bool)
    requires WellShaped(l)
    ensures r <==> p in l.grid
    ensures r <==> 0 <= p.x < l.width && 0 <= p.z < l.height
  {
    p.x >= 0 && p.x < l.width && p.z >= 0 && p.z < l.height
  }

  /**
   * `CheckIfPositionIsOfType`: under the ledger invariant a cell of an
   * occupied type is recorded in one of the dictionaries, and a cell of
   * type `Empty` in neither.
   */
  function CheckIfPositionIsOfType(l: Ledger, p: Pos, t: CellType): (r: bool)
    requires p in l.grid
    ensures r <==> l.grid[p] == t
    ensures Valid(l) && t != Empty && r ==> p in l.committed || p in l.provisional
    ensures Valid(l) && t == Empty ==> (r <==> p !in l.committed && p !in l.provisional)
  {
    l.grid[p] == t
  }

  /**
   * `CheckIfPositionIsFree`: the cell is `Empty`; under the ledger invariant
   * that is the same as the position being a key of neither dictionary.
   */
  function CheckIfPositionIsFree(l: Ledger, p: Pos): (r: bool)
    requires p in l.grid
    ensures r <==> l.grid[p] == Empty
    ensures Valid(l) ==> (r <==> p !in l.committed && p !in l.provisional)
  {
    CheckIfPositionIsOfType(l, p, Empty)
  }

  /**
   * `PlaceObjectOnTheMap`: writes `t` into that one cell and records the
   * position as committed. The grid indexer needs the position in bounds and
   * `Dictionary.Add` needs it not yet committed. Placing on a free cell keeps
   * the ledger invariant.
   */
  function PlaceObjectOnTheMap(l: Ledger, pos: Pos, t: CellType): (r: Ledger)
    requires pos in l.grid && pos !in l.committed
    ensures r.grid.Keys == l.grid.Keys && r.grid[pos] == t
    ensures forall q :: q in l.grid && q != pos ==> r.grid[q] == l.grid[q]
    ensures r.committed == l.committed + {pos} && pos !in l.committed
    ensures r.provisional == l.provisional
    ensures r.width == l.width && r.height == l.height
    ensures Valid(l) && l.grid[pos] == Empty && t != Empty ==> Valid(r)
  {
    l.(grid := l.grid[pos := t], committed := l.committed + {pos})
  }

  /**
   * `PlaceTemporaryStructure`: writes `t` into that one cell and records the
   * position as provisional; the committed records do not change.
   */
  function PlaceTemporaryStructure(l: Ledger, pos: Pos, t: CellType): (r: Ledger)
    requires pos in l.grid && pos !in l.provisional
    ensures r.grid.Keys == l.grid.Keys && r.grid[pos] == t
    ensures forall q :: q in l.grid && q != pos ==> r.grid[q] == l.grid[q]
    ensures r.provisional == l.provisional + {pos}
    ensures r.committed == l.committed
    ensures r.width == l.width && r.height == l.height
    ensures Valid(l) && l.grid[pos] == Empty && t != Empty ==> Valid(r)
  {
    l.(grid := l.grid[pos := t], provisional := l.provisional + {pos})
  }

  /**
   * `RemoveAllTemporaryStructures`: every provisional cell reverts to
   * `Empty` and the provisional records are dropped; committed records and
   * every other cell are untouched.
   */
  function RemoveAllTemporaryStructures(l: Ledger): (r: Ledger)
    requires l.provisional <= l.grid.Keys
    ensures r.grid.Keys == l.grid.Keys
    ensures forall q :: q in l.provisional ==> r.grid[q] == Empty
    ensures forall q :: q in l.grid && q !in l.provisional ==> r.grid[q] == l.grid[q]
    ensures r.provisional == {}
    ensures r.committed == l.committed
    ensures r.width == l.width && r.height == l.height
    ensures Valid(l) ==> Valid(r)
  {
    var g := map q | q in l.grid :: if q in l.provisional then Empty else l.grid[q];
    l.(grid := g, provisional := {})
  }

  /** Rolling back twice is the same as rolling back once. */
  lemma RollbackIdempotent(l: Ledger)
    requires l.provisional <= l.grid.Keys
    ensures RemoveAllTemporaryStructures(RemoveAllTemporaryStructures(l)) == RemoveAllTemporaryStructures(l)
  {
    var once := RemoveAllTemporaryStructures(l);
    var twice := RemoveAllTemporaryStructures(once);
    assert twice.grid == once.grid;
  }

  /**
   * `AddTemporaryStructuresToStructureDictionary`: every provisional record
   * becomes committed and the grid is left as it is. `Dictionary.Add` needs
   * the two key sets disjoint.
   */
  function AddTemporaryStructuresToStructureDictionary(l: Ledger): (r: Ledger)
    requires l.committed !! l.provisional
    ensures r.committed == l.committed + l.provisional
    ensures r.provisional == {}
    ensures r.grid == l.grid
    ensures r.width == l.width && r.height == l.height
    ensures Valid(l) ==> Valid(r)
  {
    l.(committed := l.committed + l.provisional, provisional := {})
  }

  /**
   * The refund `DeleteStructureAt` pays: a committed house cell refunds a
   * house, a committed special cell refunds a special building, any road
   * cell (committed or provisional) refunds a road, anything else nothing.
   */
  function DeleteRefund(l: Ledger, pos: Pos): (r: Option<Item>)
    requires pos in l.grid
    ensures r == Some(HouseItem) <==> l.grid[pos] == Structure && pos in l.committed
    ensures r == Some(SpecialItem) <==> l.grid[pos] == SpecialStructure && pos in l.committed
    ensures r == Some(RoadItem) <==> l.grid[pos] == Road
  {
    var cellType := l.grid[pos];
    if pos in l.committed && cellType == Structure then Some(HouseItem)
    else if pos in l.committed && cellType == SpecialStructure then Some(SpecialItem)
    else if cellType == Road then Some(RoadItem)
    else None
  }

  /**
   * `DeleteStructureAt`: out of bounds nothing changes; otherwise the cell
   * becomes `Empty`, the position stops being committed (provisional records
   * are not consulted), and the refund selected by the prior cell is paid.
   */
  function DeleteStructureAt(l: Ledger, e: Economy, cfg: Config, pos: Pos): (r: (Ledger, Economy))
    requires WellShaped(l)
    ensures pos !in l.grid ==> r == (l, e)
    ensures pos in l.grid ==>
      && r.0.grid == l.grid[pos := Empty]
      && r.0.committed == l.committed - {pos}
      && r.0.provisional == l.provisional
      && r.0.width == l.width && r.0.height == l.height
    ensures pos in l.grid ==>
      r.1.money == e.money + (match DeleteRefund(l, pos) case Some(item) => RefundAmount(cfg, item) case None => 0)
    ensures r.1.(money := e.money) == e
    ensures Valid(l) && pos !in l.provisional ==> Valid(r.0)
  {
    if !CheckIfPositionInBound(l, pos) then (l, e)
    else
      var refunded := match DeleteRefund(l, pos) case Some(item) => Refund(e, cfg, item) case None => e;
      (l.(grid := l.grid[pos := Empty], committed := l.committed - {pos}), refunded)
  }

  /** Deleting what was just placed on a free, unrecorded cell restores the ledger. */
  lemma DeleteUndoesPlace(l: Ledger, e: Economy, cfg: Config, pos: Pos, t: CellType)
    requires WellShaped(l) && pos in l.grid && l.grid[pos] == Empty && pos !in l.committed
    ensures DeleteStructureAt(PlaceObjectOnTheMap(l, pos, t), e, cfg, pos).0 == l
  {
    var placed := PlaceObjectOnTheMap(l, pos, t);
    var back := DeleteStructureAt(placed, e, cfg, pos).0;
    assert back.grid == l.grid;
  }

  /**
   * Deleting a building leaves the economy's tracker alone: the cell is
   * cleared and the refund paid, yet the building keeps its tracker entry,
   * so it goes on earning income and counting towards the goals.
   */
  lemma DeletedBuildingStillTracked(l: Ledger, e: Economy, cfg: Config, pos: Pos)
    requires WellShaped(l) && pos in l.grid && pos in e.tracker
    ensures var (l', e') := DeleteStructureAt(l, e, cfg, pos);
      && l'.grid[pos] == Empty && pos !in l'.committed
      && pos in e'.tracker && e'.tracker[pos] == e.tracker[pos]
      && e'.population == e.population
      && Income(e', cfg) == Income(e, cfg)
      && CountOf(e'.tracker, Special) == CountOf(e.tracker, Special)
  {
  }

  /**
   * Deleting a provisional road piece while a drag is open breaks the ledger
   * invariant: the cell is cleared but its provisional record survives.
   */
  lemma DeleteDuringDragBreaksInvariant(l: Ledger, e: Economy, cfg: Config, pos: Pos)
    requires Valid(l) && pos in l.provisional
    ensures !Valid(DeleteStructureAt(l, e, cfg, pos).0)
  {
    var r := DeleteStructureAt(l, e, cfg, pos).0;
    assert pos in r.provisional && r.grid[pos] == Empty;
  }
}

=== FILE: roads.dfy ===
/**
 * The road-drag state machine: a press starts a provisional run at one cell,
 * each later call rolls the run back and re-lays it along a path from the
 * start cell, and a release commits it. The path comes from a search over
 * the grid that is not part of this model; it is a parameter here.
 */
module Roads {
  import opened GridModel
  import opened Placement
  import opened CityEconomy
  import opened CityState

  /**
   * Appends each of `items` to `list` unless it is already there: the
   * result extends `list`, holds exactly the elements of both, and every
   * appended element is new.
   */
  function AddAbsent(list: seq<Pos>, items: seq<Pos>): (r: seq<Pos>)
    ensures |list| <= |r| && r[..|list|] == list
    ensures forall q :: q in r <==> q in list || q in items
    ensures forall i, j :: 0 <= j < i < |r| && |list| <= i ==> r[j] != r[i]
    decreases |items|
  {
    if items == [] then list
    else
      var next := if items[0] in list then list else list + [items[0]];
      var r := AddAbsent(next, items[1..]);
      assert forall q :: q in items <==> q == items[0] || q in items[1..];
      assert next[..|list|] == list;
      PrefixStep(list, next, r);
      FreshStep(list, next, r);
      r
  }

  /** Some position of `temp` is 4-adjacent to `q`. */
  ghost predicate NextToRun(temp: seq<Pos>, q: Pos) {
    exists i :: 0 <= i < |temp| && Manhattan(temp[i], q) == 1
  }

  /**
   * The recheck list `FixRoadPrefabs` builds: it keeps the old list and adds
   * every road-typed neighbour of every run position once, and nothing
   * else. Re-tiling itself changes no modelled state.
   */
  function FixRoadPrefabs(l: Ledger, temp: seq<Pos>, recheck: seq<Pos>): (r: seq<Pos>)
    requires WellShaped(l)
    ensures |recheck| <= |r| && r[..|recheck|] == recheck
    ensures forall t, n :: t in temp && n in NeighborsOfType(l.grid, l.width, l.height, t, Road) ==> n in r
    ensures forall q :: q in r && q !in recheck ==> q in l.grid && l.grid[q] == Road && NextToRun(temp, q)
    ensures forall i, j :: 0 <= j < i < |r| && |recheck| <= i ==> r[j] != r[i]
    decreases |temp|
  {
    if temp == [] then recheck
    else
      var added := AddAbsent(recheck, NeighborsOfType(l.grid, l.width, l.height, temp[0], Road));
      var r := FixRoadPrefabs(l, temp[1..], added);
      PrefixStep(recheck, added, r);
      FreshStep(recheck, added, r);
      FixStepProvenance(l, temp, recheck, added, r);
      assert forall t :: t in temp <==> t == temp[0] || t in temp[1..];
      r
  }

  /** Extending a list twice keeps the first list as a prefix. */
  lemma PrefixStep(recheck: seq<Pos>, added: seq<Pos>, r: seq<Pos>)
    requires |recheck| <= |added| && added[..|recheck|] == recheck
    requires |added| <= |r| && r[..|added|] == added
    ensures |recheck| <= |r| && r[..|recheck|] == recheck
  {
    assert r[..|recheck|] == r[..|added|][..|recheck|];
  }

  /** Elements appended in two stages, each fresh in its stage, are fresh overall. */
  lemma FreshStep(recheck: seq<Pos>, added: seq<Pos>, r: seq<Pos>)
    requires |recheck| <= |added| <= |r| && r[..|added|] == added
    requires forall i, j :: 0 <= j < i < |added| && |recheck| <= i ==> added[j] != added[i]
    requires forall i, j :: 0 <= j < i < |r| && |added| <= i ==> r[j] != r[i]
    ensures forall i, j :: 0 <= j < i < |r| && |recheck| <= i ==> r[j] != r[i]
  {
    forall i, j | 0 <= j < i < |r| && |recheck| <= i
      ensures r[j] != r[i]
    {
      if i < |added| {
        assert r[..|added|][i] == r[i] && r[..|added|][j] == r[j];
      }
    }
  }

  /** Elements appended by `FixRoadPrefabs` are road cells next to the run. */
  lemma FixStepProvenance(l: Ledger, temp: seq<Pos>, recheck: seq<Pos>, added: seq<Pos>, r: seq<Pos>)
    requires WellShaped(l) && temp != []
    requires forall q :: q in added ==> q in recheck || q in NeighborsOfType(l.grid, l.width, l.height, temp[0], Road)
    requires forall q :: q in r && q !in added ==> q in l.grid && l.grid[q] == Road && NextToRun(temp[1..], q)
    ensures forall q :: q in r && q !in recheck ==> q in l.grid && l.grid[q] == Road && NextToRun(temp, q)
  {
    forall q | q in r && q !in recheck
      ensures q in l.grid && l.grid[q] == Road && NextToRun(temp, q)
    {
      if q in added {
        assert Manhattan(temp[0], q) == 1;
      } else {
        var i :| 0 <= i < |temp[1..]| && Manhattan(temp[1..][i], q) == 1;
        assert temp[i + 1] == temp[1..][i];
      }
    }
  }

  /**
   * `UpdateRoadAtPosition` (after a deletion): the cells it re-tiles are the
   * in-bounds road-typed neighbours of the position, each once.
   */
  function UpdateRoadAtPosition(c: City, pos: Pos): (r: seq<Pos>)
    requires WellShaped(c.ledger)
    ensures forall q :: q in r <==> q in c.ledger.grid && Manhattan(pos, q) == 1 && c.ledger.grid[q] == Road
    ensures NoDup(r)
  {
    NeighborsOfType(c.ledger.grid, c.ledger.width, c.ledger.height, pos, Road)
  }

  /** The free cells of a path. */
  function FreeCells(l: Ledger, path: seq<Pos>): set<Pos>
    requires forall q :: q in path ==> q in l.grid
  {
    set q | q in path && l.grid[q] == Empty
  }

  datatype LayResult = LayResult(ledger: Ledger, economy: Economy, recheck: seq<Pos>)

  /**
   * What laying a run along `path` from ledger `l` and economy `e` produced
   * in `r`: exactly the free cells of the path became provisional roads,
   * nothing else changed on the grid or in the committed records, one road
   * was charged per distinct free cell other than the start cell, and the
   * recheck list holds the occupied cells of the path (only those, when the
   * path has no repeated cell).
   */
  ghost predicate LaidAlong(l: Ledger, e: Economy, cfg: Config, path: seq<Pos>, start: Pos, r: LayResult)
    requires forall q :: q in path ==> q in l.grid
  {
    && LaidCells(l, path, r.ledger)
    && LaidCharge(l, e, cfg, path, start, r.economy)
    && LaidRecheck(l, path, r.recheck)
  }

  /** The ledger part of `LaidAlong`. */
  ghost predicate LaidCells(l: Ledger, path: seq<Pos>, r: Ledger)
    requires forall q :: q in path ==> q in l.grid
  {
    && r.grid.Keys == l.grid.Keys
    && (forall q :: q in l.grid ==> r.grid[q] == (if q in FreeCells(l, path) then Road else l.grid[q]))
    && r.provisional == l.provisional + FreeCells(l, path)
    && r.committed == l.committed
    && r.width == l.width && r.height == l.height
  }

  /** The money part of `LaidAlong`. */
  ghost predicate LaidCharge(l: Ledger, e: Economy, cfg: Config, path: seq<Pos>, start: Pos, r: Economy)
    requires forall q :: q in path ==> q in l.grid
  {
    && r.money == e.money - cfg.roadCost * |FreeCells(l, path) - {start}|
    && r.(money := e.money) == e
  }

  /** The recheck part of `LaidAlong`. */
  ghost predicate LaidRecheck(l: Ledger, path: seq<Pos>, recheck: seq<Pos>)
    requires forall q :: q in path ==> q in l.grid
  {
    && (forall q :: q in recheck ==> q in path)
    && (forall q :: q in path && l.grid[q] != Empty ==> q in recheck)
    && (NoDup(path) ==> forall q :: q in recheck ==> l.grid[q] != Empty)
  }

  /**
   * The re-laying loop of an extending drag: walks the path in order, puts a
   * provisional road on each free cell (charging a road unless it is the
   * start cell, with no affordability check) and lists each occupied cell
   * for re-tiling. Each distinct free cell is laid and charged once.
   */
  function LayRun(l: Ledger, e: Economy, cfg: Config, path: seq<Pos>, start: Pos): (r: LayResult)
    requires forall q :: q in path ==> q in l.grid
    requires forall q :: q in l.provisional ==> q in l.grid && l.grid[q] != Empty
    ensures LaidAlong(l, e, cfg, path, start, r)
    decreases |path|
  {
    if path == [] then LayResult(l, e, [])
    else
      var p := path[0];
      if !CheckIfPositionIsFree(l, p) then
        var rest := LayRun(l, e, cfg, path[1..], start);
        LayOccupiedStep(l, e, cfg, path, start, rest);
        rest.(recheck := [p] + rest.recheck)
      else
        var placed := PlaceTemporaryStructure(l, p, Road);
        var charged := if p != start then Charge(e, cfg, RoadItem) else e;
        var rest := LayRun(placed, charged, cfg, path[1..], start);
        LayFreeStep(l, placed, e, charged, cfg, path, start, rest);
        rest
  }

  /** An occupied first cell is skipped and listed for re-tiling. */
  lemma LayOccupiedStep(l: Ledger, e: Economy, cfg: Config, path: seq<Pos>, start: Pos, rest: LayResult)
    requires path != [] && forall q :: q in path ==> q in l.grid
    requires l.grid[path[0]] != Empty
    requires LaidAlong(l, e, cfg, path[1..], start, rest)
    ensures LaidAlong(l, e, cfg, path, start, rest.(recheck := [path[0]] + rest.recheck))
  {
    assert forall q :: q in path <==> q == path[0] || q in path[1..];
    assert NoDup(path) ==> NoDup(path[1..]);
    assert FreeCells(l, path[1..]) == FreeCells(l, path);
  }

  /** A free first cell becomes a provisional road, charged unless it is the start cell. */
  lemma LayFreeStep(l: Ledger, placed: Ledger, e: Economy, charged: Economy, cfg: Config,
                    path: seq<Pos>, start: Pos, rest: LayResult)
    requires path != [] && forall q :: q in path ==> q in l.grid
    requires l.grid[path[0]] == Empty && path[0] !in l.provisional
    requires placed == PlaceTemporaryStructure(l, path[0], Road)
    requires charged == if path[0] != start then Charge(e, cfg, RoadItem) else e
    requires LaidAlong(placed, charged, cfg, path[1..], start, rest)
    ensures LaidAlong(l, e, cfg, path, start, rest)
  {
    FreeStepCells(l, placed, path, rest.ledger);
    FreeStepCharge(l, placed, e, charged, cfg, path, start, rest.economy);
    FreeStepRecheck(l, placed, path, rest.recheck);
  }

  /** The ledger part of `LayFreeStep`. */
  lemma FreeStepCells(l: Ledger, placed: Ledger, path: seq<Pos>, r: Ledger)
    requires path != [] && forall q :: q in path ==> q in l.grid
    requires l.grid[path[0]] == Empty && path[0] !in l.provisional
    requires placed == PlaceTemporaryStructure(l, path[0], Road)
    requires LaidCells(placed, path[1..], r)
    ensures LaidCells(l, path, r)
  {
    LayStep(l, placed, path, path[0], path[0]);
  }

  /** The money part of `LayFreeStep`. */
  lemma FreeStepCharge(l: Ledger, placed: Ledger, e: Economy, charged: Economy, cfg: Config,
                       path: seq<Pos>, start: Pos, r: Economy)
    requires path != [] && forall q :: q in path ==> q in l.grid
    requires l.grid[path[0]] == Empty
    requires placed.grid == l.grid[path[0] := Road]
    requires charged == if path[0] != start then Charge(e, cfg, RoadItem) else e
    requires LaidCharge(placed, charged, cfg, path[1..], start, r)
    ensures LaidCharge(l, e, cfg, path, start, r)
  {
    LayStep(l, placed, path, path[0], start);
    Distribute(cfg.roadCost, |FreeCells(placed, path[1..]) - {start}|);
  }

  /** The recheck part of `LayFreeStep`. */
  lemma FreeStepRecheck(l: Ledger, placed: Ledger, path: seq<Pos>, recheck: seq<Pos>)
    requires path != [] && forall q :: q in path ==> q in l.grid
    requires l.grid[path[0]] == Empty
    requires placed.grid == l.grid[path[0] := Road]
    requires LaidRecheck(placed, path[1..], recheck)
    ensures LaidRecheck(l, path, recheck)
  {
    var p := path[0];
    assert forall q :: q in path <==> q == p || q in path[1..];
    assert NoDup(path) ==> NoDup(path[1..]) && p !in path[1..];
  }

  lemma Distribute(c: int, n: int)
    ensures c * (n + 1) == c * n + c
  {
  }

  /** How one laid cell shrinks the set of free cells still ahead. */
  lemma LayStep(l: Ledger, placed: Ledger, path: seq<Pos>, p: Pos, start: Pos)
    requires path != [] && p == path[0]
    requires forall q :: q in path ==> q in l.grid
    requires p in l.grid && l.grid[p] == Empty
    requires placed.grid == l.grid[p := Road]
    ensures FreeCells(placed, path[1..]) == FreeCells(l, path) - {p}
    ensures p != start ==> |FreeCells(placed, path[1..]) - {start}| + 1 == |FreeCells(l, path) - {start}|
    ensures p == start ==> FreeCells(placed, path[1..]) - {start} == FreeCells(l, path) - {start}
  {
    assert forall q :: q in path <==> q == p || q in path[1..];
    var ahead := FreeCells(placed, path[1..]) - {start};
    if p != start {
      assert FreeCells(l, path) - {start} == ahead + {p};
    }
  }

  /** A sequence without repeats has as many distinct elements as it is long. */
  lemma {:induction false} DistinctCard(s: seq<Pos>)
    requires NoDup(s)
    ensures |set q | q in s| == |s|
  {
    if s != [] {
      assert NoDup(s[1..]);
      DistinctCard(s[1..]);
      assert (set q | q in s) == (set q | q in s[1..]) + {s[0]};
      assert s[0] !in s[1..];
    }
  }

  /** The cells of a path that are free once the open run is rolled back: the free ones and the provisional ones. */
  function RelaidCells(l: Ledger, path: seq<Pos>): set<Pos>
    requires forall q :: q in path ==> q in l.grid
  {
    set q | q in path && (q in l.provisional || l.grid[q] == Empty)
  }

  lemma RelaidAfterRollback(l: Ledger, path: seq<Pos>)
    requires l.provisional <= l.grid.Keys && forall q :: q in path ==> q in l.grid
    ensures FreeCells(RemoveAllTemporaryStructures(l), path) == RelaidCells(l, path)
  {
  }

  /**
   * The start branch of `PlaceRoad` on a free in-bounds cell: without money
   * for one road nothing changes; otherwise the drag opens at that cell, the
   * run is that one provisional road, one road is charged, and the road
   * neighbours of the cell are listed for re-tiling.
   */
  function StartRoad(c: City, cfg: Config, pos: Pos): (r: City)
    requires WellShaped(c.ledger)
    requires pos in c.ledger.grid && c.ledger.grid[pos] == Empty && pos !in c.ledger.provisional
    ensures !CanAfford(c.economy, cfg, RoadItem) ==> r == c
    ensures CanAfford(c.economy, cfg, RoadItem) ==>
      && r.drag.placementMode
      && r.drag.startPosition == pos
      && r.drag.temporaryPlacementPositions == [pos]
      && r.ledger == PlaceTemporaryStructure(c.ledger, pos, Road)
      && r.economy.money == c.economy.money - cfg.roadCost
      && r.economy.(money := c.economy.money) == c.economy
      && (forall q :: q in r.drag.roadPositionsToRecheck <==>
            q in c.ledger.grid && Manhattan(pos, q) == 1 && c.ledger.grid[q] == Road)
  {
    if !CanAfford(c.economy, cfg, RoadItem) then c
    else
      var l := PlaceTemporaryStructure(c.ledger, pos, Road);
      var recheck := FixRoadPrefabs(l, [pos], []);
      assert forall q :: Manhattan(pos, q) == 1 ==> q != pos;
      assert forall q :: q in recheck ==> NextToRun([pos], q) ==> Manhattan(pos, q) == 1;
      City(l, Drag(true, pos, [pos], recheck), Charge(c.economy, cfg, RoadItem))
  }

  /**
   * The extend branch of `PlaceRoad`. The guard compares the money with a
   * single road's cost, and only when the path is longer than the current
   * run. Past it, the open run is rolled back, the run becomes the path,
   * every path cell free after the rollback becomes a provisional road and
   * is charged again (except the start cell), occupied path cells and the
   * road neighbours of the run are listed for re-tiling.
   */
  function ExtendRoad(c: City, cfg: Config, path: seq<Pos>): (r: City)
    requires WellShaped(c.ledger) && c.ledger.provisional <= c.ledger.grid.Keys
    requires forall q :: q in path ==> q in c.ledger.grid
    ensures !CanAfford(c.economy, cfg, RoadItem) && |path| > |c.drag.temporaryPlacementPositions| ==> r == c
    ensures CanAfford(c.economy, cfg, RoadItem) || |path| <= |c.drag.temporaryPlacementPositions| ==>
      && r.drag == c.drag.(temporaryPlacementPositions := path, roadPositionsToRecheck := r.drag.roadPositionsToRecheck)
      && r.ledger.committed == c.ledger.committed
      && r.ledger.provisional == RelaidCells(c.ledger, path)
      && r.ledger.grid.Keys == c.ledger.grid.Keys
      && r.ledger.width == c.ledger.width && r.ledger.height == c.ledger.height
      && WellShaped(r.ledger)
      && (forall q :: q in c.ledger.grid ==>
            r.ledger.grid[q] == (if q in RelaidCells(c.ledger, path) then Road
                                 else if q in c.ledger.provisional then Empty
                                 else c.ledger.grid[q]))
      && r.economy.money == c.economy.money - cfg.roadCost * |RelaidCells(c.ledger, path) - {c.drag.startPosition}|
      && r.economy.(money := c.economy.money) == c.economy
      && (forall q :: q in path && q !in RelaidCells(c.ledger, path) ==> q in r.drag.roadPositionsToRecheck)
      && (forall t, n :: t in path && n in NeighborsOfType(r.ledger.grid, r.ledger.width, r.ledger.height, t, Road)
            ==> n in r.drag.roadPositionsToRecheck)
      && (forall q :: q in r.drag.roadPositionsToRecheck ==>
            q in path || (q in r.ledger.grid && r.ledger.grid[q] == Road && NextToRun(path, q)))
  {
    var newPieces := |path| - |c.drag.temporaryPlacementPositions|;
    if !CanAfford(c.economy, cfg, RoadItem) && newPieces > 0 then c
    else
      var rolled := RemoveAllTemporaryStructures(c.ledger);
      var lay := LayRun(rolled, c.economy, cfg, path, c.drag.startPosition);
      RelaidLedger(c.ledger, c.economy, cfg, path, c.drag.startPosition, lay);
      var recheck := FixRoadPrefabs(lay.ledger, path, lay.recheck);
      RelaidRecheck(c.ledger, path, lay, recheck);
      City(lay.ledger, c.drag.(temporaryPlacementPositions := path, roadPositionsToRecheck := recheck), lay.economy)
  }

  /** The ledger and money after rolling back and re-laying along `path`, in terms of the ledger before the rollback. */
  lemma RelaidLedger(l: Ledger, e: Economy, cfg: Config, path: seq<Pos>, start: Pos, lay: LayResult)
    requires WellShaped(l) && l.provisional <= l.grid.Keys
    requires forall q :: q in path ==> q in l.grid
    requires lay == LayRun(RemoveAllTemporaryStructures(l), e, cfg, path, start)
    ensures lay.ledger.committed == l.committed
    ensures lay.ledger.provisional == RelaidCells(l, path)
    ensures lay.ledger.grid.Keys == l.grid.Keys
    ensures lay.ledger.width == l.width && lay.ledger.height == l.height
    ensures WellShaped(lay.ledger)
    ensures forall q :: q in l.grid ==>
      lay.ledger.grid[q] == (if q in RelaidCells(l, path) then Road
                             else if q in l.provisional then Empty
                             else l.grid[q])
    ensures lay.economy.money == e.money - cfg.roadCost * |RelaidCells(l, path) - {start}|
    ensures lay.economy.(money := e.money) == e
    ensures forall q :: q in path && q !in RelaidCells(l, path) ==> q in lay.recheck
    ensures forall q :: q in lay.recheck ==> q in path
  {
    RelaidAfterRollback(l, path);
  }

  /** The recheck list after re-tiling the re-laid run. */
  lemma RelaidRecheck(l: Ledger, path: seq<Pos>, lay: LayResult, recheck: seq<Pos>)
    requires WellShaped(lay.ledger)
    requires forall q :: q in path ==> q in l.grid
    requires forall q :: q in path && q !in RelaidCells(l, path) ==> q in lay.recheck
    requires forall q :: q in lay.recheck ==> q in path
    requires recheck == FixRoadPrefabs(lay.ledger, path, lay.recheck)
    ensures forall q :: q in path && q !in RelaidCells(l, path) ==> q in recheck
    ensures forall t, n :: t in path && n in NeighborsOfType(lay.ledger.grid, lay.ledger.width, lay.ledger.height, t, Road)
              ==> n in recheck
    ensures forall q :: q in recheck ==>
              q in path || (q in lay.ledger.grid && lay.ledger.grid[q] == Road && NextToRun(path, q))
  {
    assert forall q :: q in lay.recheck ==> q in recheck;
  }

  /**
   * The conditions under which `PlaceRoad` cannot fault: the grid covers
   * the bounds, provisional records sit on grid cells, a free cell where a
   * drag starts is not already a provisional key (`Dictionary.Add`), and a
   * path used to extend a drag stays on the grid.
   */
  ghost predicate RoadCallable(c: City, pos: Pos, path: seq<Pos>) {
    && WellShaped(c.ledger)
    && c.ledger.provisional <= c.ledger.grid.Keys
    && (!c.drag.placementMode && pos in c.ledger.grid && c.ledger.grid[pos] == Empty ==> pos !in c.ledger.provisional)
    && (c.drag.placementMode ==> forall q :: q in path ==> q in c.ledger.grid)
  }

  /**
   * `PlaceRoad`: an out-of-bounds or occupied position changes nothing;
   * otherwise the call starts a drag when none is open and extends the open
   * one along `path` (the search result from the start cell to `pos`).
   */
  function PlaceRoad(c: City, cfg: Config, pos: Pos, path: seq<Pos>): (r: City)
    requires RoadCallable(c, pos, path)
    ensures pos !in c.ledger.grid || c.ledger.grid[pos] != Empty ==> r == c
    ensures pos in c.ledger.grid && c.ledger.grid[pos] == Empty && !c.drag.placementMode ==> r == StartRoad(c, cfg, pos)
    ensures pos in c.ledger.grid && c.ledger.grid[pos] == Empty && c.drag.placementMode ==> r == ExtendRoad(c, cfg, path)
  {
    if !CheckIfPositionInBound(c.ledger, pos) then c
    else if !CheckIfPositionIsFree(c.ledger, pos) then c
    else if !c.drag.placementMode then StartRoad(c, cfg, pos)
    else ExtendRoad(c, cfg, path)
  }

  /**
   * `FinishPlacingRoad`: closes the drag, commits every provisional record
   * (the grid already holds the roads), empties the run and resets the start
   * cell to the origin; the recheck list and the money are left as they are.
   */
  function FinishPlacingRoad(c: City): (r: City)
    requires c.ledger.committed !! c.ledger.provisional
    ensures !r.drag.placementMode
    ensures r.ledger.committed == c.ledger.committed + c.ledger.provisional
    ensures r.ledger.provisional == {}
    ensures r.ledger.grid == c.ledger.grid
    ensures r.ledger.width == c.ledger.width && r.ledger.height == c.ledger.height
    ensures r.drag.temporaryPlacementPositions == [] && r.drag.startPosition == Origin
    ensures r.drag.roadPositionsToRecheck == c.drag.roadPositionsToRecheck
    ensures r.economy == c.economy
  {
    City(AddTemporaryStructuresToStructureDictionary(c.ledger),
         c.drag.(placementMode := false, temporaryPlacementPositions := [], startPosition := Origin),
         c.economy)
  }

  /**
   * Cancelling at any point of a drag restores the ledger the drag began
   * with: rolling back after an extension gives what rolling back before it
   * gave, and rolling back right after a start undoes the start.
   */
  lemma ExtendThenRollback(c: City, cfg: Config, path: seq<Pos>)
    requires WellShaped(c.ledger) && c.ledger.provisional <= c.ledger.grid.Keys
    requires forall q :: q in path ==> q in c.ledger.grid
    ensures RemoveAllTemporaryStructures(ExtendRoad(c, cfg, path).ledger) == RemoveAllTemporaryStructures(c.ledger)
  {
    var r := ExtendRoad(c, cfg, path);
    if r != c {
      RelaidRollback(c.ledger, r.ledger, path);
    }
  }

  /** Rolling back a re-laid run gives what rolling back the run it replaced gave. */
  lemma RelaidRollback(l: Ledger, l': Ledger, path: seq<Pos>)
    requires l.provisional <= l.grid.Keys && forall q :: q in path ==> q in l.grid
    requires l'.grid.Keys == l.grid.Keys && l'.width == l.width && l'.height == l.height
    requires l'.committed == l.committed && l'.provisional == RelaidCells(l, path)
    requires forall q :: q in l.grid ==>
      l'.grid[q] == (if q in RelaidCells(l, path) then Road
                     else if q in l.provisional then Empty
                     else l.grid[q])
    ensures l'.provisional <= l'.grid.Keys
    ensures RemoveAllTemporaryStructures(l') == RemoveAllTemporaryStructures(l)
  {
    var after := RemoveAllTemporaryStructures(l');
    var before := RemoveAllTemporaryStructures(l);
    forall q | q in after.grid
      ensures after.grid[q] == before.grid[q]
    {
      if q in l.provisional {
        assert before.grid[q] == Empty;
      } else if q in RelaidCells(l, path) {
        assert l.grid[q] == Empty;
      }
    }
    assert after.grid == before.grid;
  }

  lemma StartThenRollback(c: City, cfg: Config, pos: Pos)
    requires WellShaped(c.ledger) && c.ledger.provisional == {}
    requires pos in c.ledger.grid && c.ledger.grid[pos] == Empty
    ensures RemoveAllTemporaryStructures(StartRoad(c, cfg, pos).ledger) == c.ledger
  {
    var after := RemoveAllTemporaryStructures(StartRoad(c, cfg, pos).ledger);
    assert after.grid == c.ledger.grid;
  }

  /**
   * Every extension charges the whole run again: when the path repeats no
   * cell, starts at the drag's start cell and runs only over free or
   * provisional cells, the tick costs one road per path cell but the start,
   * however many of them were already laid and paid for on earlier ticks.
   */
  lemma ExtendRechargesWholeRun(c: City, cfg: Config, path: seq<Pos>)
    requires WellShaped(c.ledger) && c.ledger.provisional <= c.ledger.grid.Keys
    requires forall q :: q in path ==> q in c.ledger.grid
    requires NoDup(path) && path != [] && path[0] == c.drag.startPosition
    requires forall q :: q in path ==> q in c.ledger.provisional || c.ledger.grid[q] == Empty
    requires CanAfford(c.economy, cfg, RoadItem) || |path| <= |c.drag.temporaryPlacementPositions|
    ensures ExtendRoad(c, cfg, path).economy.money == c.economy.money - cfg.roadCost * (|path| - 1)
  {
    RelaidWholePath(c.ledger, path);
    var r := ExtendRoad(c, cfg, path);
    assert r.economy.money == c.economy.money - cfg.roadCost * |RelaidCells(c.ledger, path) - {path[0]}|;
  }

  /** A path without repeats over free or provisional cells is re-laid whole. */
  lemma RelaidWholePath(l: Ledger, path: seq<Pos>)
    requires forall q :: q in path ==> q in l.grid
    requires NoDup(path) && path != []
    requires forall q :: q in path ==> q in l.provisional || l.grid[q] == Empty
    ensures |RelaidCells(l, path) - {path[0]}| == |path| - 1
  {
    DistinctCard(path);
    assert RelaidCells(l, path) == set q | q in path;
  }

  /**
   * A click on a free in-bounds cell with money for one road, followed by
   * a release, leaves a committed road there, one road paid for, and no drag.
   */
  lemma ClickAndRelease(c: City, cfg: Config, pos: Pos, path: seq<Pos>)
    requires SessionValid(c) && !c.drag.placementMode
    requires pos in c.ledger.grid && c.ledger.grid[pos] == Empty
    requires CanAfford(c.economy, cfg, RoadItem)
    ensures var r := FinishPlacingRoad(PlaceRoad(c, cfg, pos, path));
      && r.ledger.grid == c.ledger.grid[pos := Road]
      && r.ledger.committed == c.ledger.committed + {pos}
      && r.ledger.provisional == {}
      && r.economy.money == c.economy.money - cfg.roadCost
      && !r.drag.placementMode
  {
    var started := PlaceRoad(c, cfg, pos, path);
    assert started.ledger.grid == c.ledger.grid[pos := Road];
  }
}

=== FILE: session.dfy ===
/**
 * A play session as a sequence of input events, each dispatched the way the
 * game's input wiring does it (road press/hold/release, house or special
 * click, delete click, income tick), and the invariants every step keeps.
 */
module Session {
  import opened GridModel
  import opened Placement
  import opened CityEconomy
  import opened CityState
  import opened Roads
  import opened Structures

  datatype Event =
    | RoadPress(pos: Pos, path: seq<Pos>)
    | RoadRelease
    | HouseClick(pos: Pos)
    | SpecialClick(pos: Pos)
    | DeleteClick(pos: Pos)
    | IncomeTick

  /**
   * The inputs this model follows: a drag extension comes with a path that
   * stays on the grid, and a delete does not hit a provisional road piece
   * of an open drag (that case breaks the ledger invariant, see
   * `Placement.DeleteDuringDragBreaksInvariant`).
   */
  predicate Admissible(c: City, e: Event) {
    match e
    case RoadPress(_, path) => c.drag.placementMode ==> forall q :: q in path ==> q in c.ledger.grid
    case DeleteClick(pos) => pos !in c.ledger.provisional
    case _ => true
  }

  lemma StartKeepsSession(c: City, cfg: Config, pos: Pos)
    requires SessionValid(c) && !c.drag.placementMode
    requires pos in c.ledger.grid && c.ledger.grid[pos] == Empty
    ensures SessionValid(StartRoad(c, cfg, pos))
    ensures NoSpecialCells(c.ledger) ==> NoSpecialCells(StartRoad(c, cfg, pos).ledger)
  {
  }

  lemma ExtendKeepsSession(c: City, cfg: Config, path: seq<Pos>)
    requires SessionValid(c) && c.drag.placementMode
    requires forall q :: q in path ==> q in c.ledger.grid
    ensures SessionValid(ExtendRoad(c, cfg, path))
    ensures NoSpecialCells(c.ledger) ==> NoSpecialCells(ExtendRoad(c, cfg, path).ledger)
  {
    var r := ExtendRoad(c, cfg, path);
    if r != c {
      RelaidKeepsLedger(c.ledger, r.ledger, path);
    }
  }

  /**
   * Re-laying a run along a path over a valid ledger whose provisional
   * cells are roads gives a valid ledger whose provisional cells are roads,
   * and adds no special cell.
   */
  lemma RelaidKeepsLedger(l: Ledger, l': Ledger, path: seq<Pos>)
    requires Valid(l) && forall p :: p in l.provisional ==> l.grid[p] == Road
    requires forall q :: q in path ==> q in l.grid
    requires WellShaped(l') && l'.grid.Keys == l.grid.Keys
    requires l'.committed == l.committed && l'.provisional == RelaidCells(l, path)
    requires forall q :: q in l.grid ==>
      l'.grid[q] == (if q in RelaidCells(l, path) then Road
                     else if q in l.provisional then Empty
                     else l.grid[q])
    ensures Valid(l') && forall p :: p in l'.provisional ==> l'.grid[p] == Road
    ensures NoSpecialCells(l) ==> NoSpecialCells(l')
  {
    var relaid := RelaidCells(l, path);
    assert l'.committed !! l'.provisional by {
      forall q | q in relaid ensures q !in l.committed {
        assert q in l.provisional || l.grid[q] == Empty;
      }
    }
    forall q | q in l'.committed
      ensures q in l'.grid && l'.grid[q] != Empty
    {
      assert q !in l.provisional && q !in relaid;
    }
    forall q | q in l'.grid && l'.grid[q] != Empty
      ensures q in l'.committed || q in l'.provisional
    {
      if q !in relaid {
        assert q !in l.provisional && l'.grid[q] == l.grid[q];
      }
    }
  }

  lemma RoadPressKeepsSession(c: City, cfg: Config, pos: Pos, path: seq<Pos>)
    requires SessionValid(c) && Admissible(c, RoadPress(pos, path))
    ensures SessionValid(PlaceRoad(c, cfg, pos, path))
    ensures NoSpecialCells(c.ledger) ==> NoSpecialCells(PlaceRoad(c, cfg, pos, path).ledger)
  {
    if pos in c.ledger.grid && c.ledger.grid[pos] == Empty {
      if c.drag.placementMode {
        ExtendKeepsSession(c, cfg, path);
      } else {
        StartKeepsSession(c, cfg, pos);
      }
    }
  }

  lemma HouseKeepsSession(c: City, cfg: Config, pos: Pos)
    requires SessionValid(c)
    ensures SessionValid(PlaceHouse(c, cfg, pos)) && SessionValid(PlaceSpecial(c, cfg, pos))
    ensures NoSpecialCells(c.ledger) ==> NoSpecialCells(PlaceHouse(c, cfg, pos).ledger)
    ensures NoSpecialCells(c.ledger) ==> NoSpecialCells(PlaceSpecial(c, cfg, pos).ledger)
  {
  }

  /** A delete off the open run keeps the session invariant and touches only the money. */
  lemma DeleteKeepsSession(c: City, cfg: Config, pos: Pos)
    requires SessionValid(c) && pos !in c.ledger.provisional
    ensures var (l, econ) := DeleteStructureAt(c.ledger, c.economy, cfg, pos);
      && SessionValid(City(l, c.drag, econ))
      && (NoSpecialCells(c.ledger) ==> NoSpecialCells(l))
      && econ.(money := c.economy.money) == c.economy
  {
  }

  /**
   * One input event. Every step keeps the session invariant and never puts
   * a `SpecialStructure` on the grid; with non-negative rates it never lowers
   * the population; it keeps the goal bookkeeping consistent and never moves
   * the goal index back.
   */
  function Step(c: City, cfg: Config, e: Event): (r: City)
    requires SessionValid(c) && Admissible(c, e)
    ensures SessionValid(r)
    ensures NoSpecialCells(c.ledger) ==> NoSpecialCells(r.ledger)
    ensures NonNegativeRates(cfg) ==> r.economy.population >= c.economy.population
    ensures GoalsConsistent(c.economy) ==> GoalsConsistent(r.economy)
    ensures r.economy.goalIndex >= c.economy.goalIndex
  {
    match e
    case RoadPress(pos, path) =>
      RoadPressKeepsSession(c, cfg, pos, path);
      PlaceRoad(c, cfg, pos, path)
    case RoadRelease =>
      FinishPlacingRoad(c)
    case HouseClick(pos) =>
      HouseKeepsSession(c, cfg, pos);
      PlaceHouse(c, cfg, pos)
    case SpecialClick(pos) =>
      HouseKeepsSession(c, cfg, pos);
      PlaceSpecial(c, cfg, pos)
    case DeleteClick(pos) =>
      DeleteKeepsSession(c, cfg, pos);
      var (l, econ) := DeleteStructureAt(c.ledger, c.economy, cfg, pos);
      City(l, c.drag, econ)
    case IncomeTick =>
      c.(economy := GenerateIncome(c.economy, cfg))
  }

  /**
   * A run of events from a valid city: `None` when an event falls outside
   * the inputs the model follows, otherwise the city reached, which keeps
   * every invariant of `Step`.
   */
  function Run(c: City, cfg: Config, events: seq<Event>): (r: Option<City>)
    requires SessionValid(c)
    ensures r.Some? ==> SessionValid(r.value)
    ensures r.Some? && NoSpecialCells(c.ledger) ==> NoSpecialCells(r.value.ledger)
    ensures r.Some? && NonNegativeRates(cfg) ==> r.value.economy.population >= c.economy.population
    ensures r.Some? && GoalsConsistent(c.economy) ==> GoalsConsistent(r.value.economy)
    ensures r.Some? ==> r.value.economy.goalIndex >= c.economy.goalIndex
    decreases |events|
  {
    if events == [] then Some(c)
    else if !Admissible(c, events[0]) then None
    else Run(Step(c, cfg, events[0]), cfg, events[1..])
  }

  /**
   * In a city that keeps the session invariant the refund of a deletion is
   * selected by the cell type alone: house for `Structure`, special building
   * for `SpecialStructure`, road for `Road`, none for `Empty`.
   */
  lemma RefundByCellType(c: City, pos: Pos)
    requires SessionValid(c) && pos in c.ledger.grid
    ensures DeleteRefund(c.ledger, pos) == match c.ledger.grid[pos]
      case Structure => Some(HouseItem)
      case SpecialStructure => Some(SpecialItem)
      case Road => Some(RoadItem)
      case Empty => None
  {
    if c.ledger.grid[pos] == Structure || c.ledger.grid[pos] == SpecialStructure {
      assert pos !in c.ledger.provisional;
    }
  }

  /**
   * From the starting city, whatever events follow: the invariants hold,
   * no cell is ever a `SpecialStructure`, and so no deletion ever pays the
   * special-building refund.
   */
  lemma {:induction false} SessionsNeverRefundSpecial(cfg: Config, width: int, height: int, goals: seq<Goal>,
                                                       events: seq<Event>, pos: Pos)
    requires Run(Init(cfg, width, height, goals), cfg, events).Some?
    ensures var c := Run(Init(cfg, width, height, goals), cfg, events).value;
      && SessionValid(c)
      && GoalsConsistent(c.economy)
      && (pos in c.ledger.grid ==> DeleteRefund(c.ledger, pos) != Some(SpecialItem))
  {
    var c := Run(Init(cfg, width, height, goals), cfg, events).value;
    if pos in c.ledger.grid {
      assert c.ledger.grid[pos] != SpecialStructure;
    }
  }
}

=== FILE: state.dfy ===
/**
 * The whole mutable state of a city session: the placement ledger, the
 * road-drag fields and the economy, as one immutable record.
 */
module CityState {
  import opened GridModel
  import opened Placement
  import opened CityEconomy

  /**
   * The road-drag fields: whether a drag is open, the cell it started from,
   * the positions of the current provisional run, and the road cells whose
   * tile must be recomputed.
   */
  datatype Drag = Drag(
    placementMode: bool,
    startPosition: Pos,
    temporaryPlacementPositions: seq<Pos>,
    roadPositionsToRecheck: seq<Pos>)

  datatype City = City(ledger: Ledger, drag: Drag, economy: Economy)

  /** `Vector3Int.zero`. */
  const Origin := Pos(0, 0)

  /**
   * The session invariant: the ledger invariant, provisional records are
   * road pieces, and there are provisional records only while a drag is open.
   */
  ghost predicate SessionValid(c: City) {
    && Valid(c.ledger)
    && (forall p :: p in c.ledger.provisional ==> c.ledger.grid[p] == Road)
    && (!c.drag.placementMode ==> c.ledger.provisional == {})
  }

  /** No cell holds a special building. */
  ghost predicate NoSpecialCells(l: Ledger) {
    forall p :: p in l.grid ==> l.grid[p] != SpecialStructure
  }

  /** The city as `Start` leaves it: an empty grid, no drag, the starting economy. */
  function Init(cfg: Config, width: int, height: int, goals: seq<Goal>): (c: City)
    ensures SessionValid(c) && NoSpecialCells(c.ledger)
    ensures GoalsConsistent(c.economy)
    ensures c.economy.money == cfg.startingMoney && c.economy.population == 0
    ensures !c.drag.placementMode
    ensures c.ledger.width == width && c.ledger.height == height
  {
    City(NewLedger(width, height), Drag(false, Origin, [], []), Start(cfg, goals))
  }
}

=== FILE: structures.dfy ===
/**
 * Placement of houses and special buildings: a cell is acceptable when it
 * is in bounds, free and next to a road; a placement charges its cost and
 * then notifies the economy, whose listener runs synchronously.
 */
module Structures {
  import opened GridModel
  import opened Placement
  import opened CityEconomy
  import opened CityState

  /** Some in-bounds 4-neighbour of `pos` is a road. */
  ghost predicate NextToRoad(l: Ledger, pos: Pos) {
    exists q :: q in l.grid && Manhattan(pos, q) == 1 && l.grid[q] == Road
  }

  /**
   * `CheckPositionBeforePlacement`: accepts exactly the in-bounds free cells
   * with at least one road among their 4-neighbours.
   */
  function CheckPositionBeforePlacement(l: Ledger, pos: Pos): (r: bool)
    requires WellShaped(l)
    ensures r <==> pos in l.grid && l.grid[pos] == Empty && NextToRoad(l, pos)
  {
    if !CheckIfPositionInBound(l, pos) then false
    else if !CheckIfPositionIsFree(l, pos) then false
    else
      var roads := NeighborsOfType(l.grid, l.width, l.height, pos, Road);
      assert roads != [] ==> roads[0] in roads;
      |roads| > 0
  }

  /**
   * What `PlaceObjectOnTheMap` needs of a position the placement check
   * accepted: the grid covers the bounds, and a committed key is never a
   * free cell (`Dictionary.Add` throws on a present key).
   */
  ghost predicate StructureCallable(c: City, pos: Pos) {
    && WellShaped(c.ledger)
    && (pos in c.ledger.committed ==> pos in c.ledger.grid && c.ledger.grid[pos] != Empty)
  }

  /**
   * `PlaceHouse`: without money for a house, or on a cell the placement
   * check rejects, nothing changes. Otherwise a committed `Structure` is
   * written, the house is charged, and the house listener runs, which
   * charges the house a second time when the money still covers it (and
   * only then tracks the house and adds its residents).
   */
  function PlaceHouse(c: City, cfg: Config, pos: Pos): (r: City)
    requires StructureCallable(c, pos)
    ensures !CanAfford(c.economy, cfg, HouseItem) ==> r == c
    ensures !CheckPositionBeforePlacement(c.ledger, pos) ==> r == c
    ensures CanAfford(c.economy, cfg, HouseItem) && CheckPositionBeforePlacement(c.ledger, pos) ==>
      && r.ledger == PlaceObjectOnTheMap(c.ledger, pos, Structure)
      && r.economy == HandleHousePlacement(Charge(c.economy, cfg, HouseItem), cfg, pos)
      && r.drag == c.drag
    ensures CanAfford(c.economy, cfg, HouseItem) && CheckPositionBeforePlacement(c.ledger, pos)
              && c.economy.money - cfg.houseCost >= cfg.houseCost ==>
      && r.economy.money == c.economy.money - 2 * cfg.houseCost + RewardPaid(c.economy, r.economy)
      && r.economy.tracker == c.economy.tracker[pos := House]
      && r.economy.population == c.economy.population + cfg.populationPerHouse
    ensures CanAfford(c.economy, cfg, HouseItem) && CheckPositionBeforePlacement(c.ledger, pos)
              && c.economy.money - cfg.houseCost < cfg.houseCost ==>
      r.economy == c.economy.(money := c.economy.money - cfg.houseCost)
    ensures NonNegativeRates(cfg) ==> r.economy.population >= c.economy.population
    ensures GoalsConsistent(c.economy) ==> GoalsConsistent(r.economy)
    ensures r.economy.goalIndex >= c.economy.goalIndex
  {
    if !CanAfford(c.economy, cfg, HouseItem) then c
    else if !CheckPositionBeforePlacement(c.ledger, pos) then c
    else
      var l := PlaceObjectOnTheMap(c.ledger, pos, Structure);
      var charged := Charge(c.economy, cfg, HouseItem);
      City(l, c.drag, HandleHousePlacement(charged, cfg, pos))
  }

  /**
   * `PlaceSpecial`: like `PlaceHouse` with the special building's cost and
   * listener, and it writes a plain `Structure` cell, not a
   * `SpecialStructure` one.
   */
  function PlaceSpecial(c: City, cfg: Config, pos: Pos): (r: City)
    requires StructureCallable(c, pos)
    ensures !CanAfford(c.economy, cfg, SpecialItem) ==> r == c
    ensures !CheckPositionBeforePlacement(c.ledger, pos) ==> r == c
    ensures CanAfford(c.economy, cfg, SpecialItem) && CheckPositionBeforePlacement(c.ledger, pos) ==>
      && r.ledger == PlaceObjectOnTheMap(c.ledger, pos, Structure)
      && r.economy == HandleSpecialPlacement(Charge(c.economy, cfg, SpecialItem), cfg, pos)
      && r.ledger.grid[pos] == Structure
      && r.drag == c.drag
    ensures CanAfford(c.economy, cfg, SpecialItem) && CheckPositionBeforePlacement(c.ledger, pos)
              && c.economy.money - cfg.specialBuildingCost >= cfg.specialBuildingCost ==>
      && r.economy.money == c.economy.money - 2 * cfg.specialBuildingCost + RewardPaid(c.economy, r.economy)
      && r.economy.tracker == c.economy.tracker[pos := Special]
      && r.economy.population == c.economy.population + cfg.populationPerSpecialBuilding
    ensures CanAfford(c.economy, cfg, SpecialItem) && CheckPositionBeforePlacement(c.ledger, pos)
              && c.economy.money - cfg.specialBuildingCost < cfg.specialBuildingCost ==>
      r.economy == c.economy.(money := c.economy.money - cfg.specialBuildingCost)
    ensures NonNegativeRates(cfg) ==> r.economy.population >= c.economy.population
    ensures GoalsConsistent(c.economy) ==> GoalsConsistent(r.economy)
    ensures r.economy.goalIndex >= c.economy.goalIndex
  {
    if !CanAfford(c.economy, cfg, SpecialItem) then c
    else if !CheckPositionBeforePlacement(c.ledger, pos) then c
    else
      var l := PlaceObjectOnTheMap(c.ledger, pos, Structure);
      var charged := Charge(c.economy, cfg, SpecialItem);
      City(l, c.drag, HandleSpecialPlacement(charged, cfg, pos))
  }

  /**
   * A house placed with money for exactly one house is paid once, stands on
   * the grid, and yet brings no residents and no tracked building: the
   * listener's second affordability check fails.
   */
  lemma HouseWithoutResidents(c: City, cfg: Config, pos: Pos)
    requires StructureCallable(c, pos) && CheckPositionBeforePlacement(c.ledger, pos)
    requires cfg.houseCost > 0 && c.economy.money == cfg.houseCost
    ensures PlaceHouse(c, cfg, pos).ledger.grid[pos] == Structure
    ensures pos in PlaceHouse(c, cfg, pos).ledger.committed
    ensures PlaceHouse(c, cfg, pos).economy.money == 0
    ensures PlaceHouse(c, cfg, pos).economy.population == c.economy.population
    ensures PlaceHouse(c, cfg, pos).economy.tracker == c.economy.tracker
  {
  }

  /**
   * Deleting a special building refunds a house: the special was written as
   * a `Structure` cell, and the refund is chosen by the cell type.
   */
  lemma DeletedSpecialRefundsHouse(c: City, cfg: Config, pos: Pos)
    requires StructureCallable(c, pos) && CheckPositionBeforePlacement(c.ledger, pos)
    requires CanAfford(c.economy, cfg, SpecialItem)
    ensures var placed := PlaceSpecial(c, cfg, pos);
      DeleteStructureAt(placed.ledger, placed.economy, cfg, pos).1.money == placed.economy.money + cfg.houseRefund
  {
  }
}
